=== FILE: README.md ===
# Restaurant order board: WebSocket core in Dafny

server.js is a small point-of-sale server. Browsers open a WebSocket on
`/ws`. They send JSON messages that create orders (`new_order`), change an
order's status (`update_status`) or ask for the list (`get_state`). Every
change is broadcast to all connected clients. The server implements the
WebSocket base framing (RFC 6455, section 5.2) by hand, including
client-to-server masking (section 5.3).

This project models that core as pure Dafny functions and proves properties
about them:

- `Bytes`: the big-endian length fields and the XOR masking, with the loop
  that unmasks a payload.
- `FrameCodec`: `sendFrame`'s encoder. It also holds `decodeFrames`, as a
  recursive reference definition (`DecodeFrames`) and as the source's
  offset-based while loop (`DecodeFramesLoop`). The loop is proved equal to
  the reference. A general frame builder (`BuildFrame`) stands for any peer,
  masked or not, with any first byte.
- `Session`: the per-connection `data` handler. It appends a chunk,
  decodes, and keeps the remainder as the new buffer.
- `Orders`: the `orders` array, the `nextOrderId` counter, `normalizeOrder`
  and `handleMessage`. A parsed document is classified into a `Request`.
  The dispatcher returns the new store and an `Outcome`: a reply to the
  sender or a broadcast.
- `Server`: the upgrade handshake and the `clients` registry. It also has
  the broadcast fan-out and the socket events (upgrade, data, close/error).
  Each event is a transition that returns the socket actions to perform.

## Model

| member | source | states |
|---|---|---|
| FrameCodec.Encode | server.js:19-39 | The frame starts with 0x81 and ends with the payload. A payload under 126 bytes has its length in byte 1. One under 65536 has 126 in byte 1 and a 16-bit big-endian length. A longer one has 127 and a 64-bit big-endian length. |
| FrameCodec.LengthTiers | server.js:24-35 | The 16-bit and 64-bit length fields read back the length written into them. |
| FrameCodec.EncodeIsTextFrame | server.js:24-37 | What `sendFrame` writes is the unmasked text frame (first byte 0x81) that the general frame builder makes for the payload. |
| FrameCodec.ParseHeader | server.js:106-122 | A header, once complete, is 2, 4 or 10 bytes long and lies inside the buffer. Its opcode is the low nibble of byte 0 and its mask flag is the high bit of byte 1. The length fields are stated by FrameCodec.ParseHeaderFields. |
| FrameCodec.ParseHeaderFields | server.js:105-122 | The header is incomplete exactly when fewer than 2 bytes are there, or the length code is 126 with fewer than 4 bytes, or 127 with fewer than 10. A code below 126 is the payload length itself in a 2-byte header. Code 126 reads a 16-bit big-endian length (4-byte header) and code 127 a 64-bit one (10-byte header). |
| FrameCodec.WideLengthField | server.js:113-121 | Any length that fits the 16-bit or 64-bit field is read back from it, small lengths included: the decoder does not demand the shortest encoding. |
| FrameCodec.PaddedLengthDecodes | server.js:113-127 | A one-byte text frame whose length 1 is written in the 16-bit field decodes to that byte, with nothing kept. |
| FrameCodec.ReadHeader | server.js:105-122 | The loop's header reading reports an incomplete header exactly when the reference parser finds none. Otherwise it reads the same header. |
| FrameCodec.ReadPayload | server.js:133-142 | The slice after the header and masking key, unmasked when the mask bit is set, is the frame's payload. |
| FrameCodec.DecodeTurn | server.js:106-145 | One loop turn waits exactly when the rest of the buffer holds no complete frame. It stops exactly when that frame is a close frame. Otherwise it returns the frame's payload and moves past the whole frame. |
| FrameCodec.DecodeFrames | server.js:101-149 | The reference decoder, written recursively. It has no contract of its own: FrameCodec.DecodeFramesShape, FrameCodec.StalledIff and FrameCodec.DecodeAppend state its behaviour, and FrameCodec.DecodeFramesLoop proves the source's loop equal to it. |
| FrameCodec.DecodeFramesLoop | server.js:101-149 | The while loop returns the same messages, remainder and close flag as the reference decoder, for every buffer. |
| FrameCodec.DecodeFramesShape | server.js:127-148 | After a close frame the remainder is empty. Otherwise the remainder is a suffix of the input that does not start with a complete frame. |
| FrameCodec.StalledIff | server.js:113-127 | The decoder returns no messages and keeps the whole buffer exactly when the buffer does not start with a complete frame. |
| FrameCodec.TruncatedFrameWaits | server.js:114-127 | Every proper prefix of any frame, masked or not, decodes to nothing and is kept whole. This covers a split header and a split payload in every length tier. |
| FrameCodec.DecodeBuiltFrame | server.js:105-146 | A complete frame followed by any bytes decodes to the frame's payload and then whatever the rest decodes to. The payload is unmasked when a key is present. A close opcode ends decoding with nothing kept. |
| FrameCodec.RoundTrip | server.js:101-149 | Decoding what `sendFrame` writes gives back exactly the payload, with nothing kept and no close. This holds in all three length tiers. |
| FrameCodec.MaskedRoundTrip | server.js:133-144 | A client text frame masked with any 4-byte key decodes to the payload before masking. |
| FrameCodec.TwoFrames | server.js:105-146 | Two frames in one buffer decode to both payloads, in arrival order, with nothing kept. |
| FrameCodec.CloseDiscardsRest | server.js:129-131 | A complete close frame, masked or not, yields closed with an empty remainder, whatever bytes follow it. |
| FrameCodec.ParseHeaderExtend | server.js:113-122 | Bytes arriving later never change a header that is already complete. |
| FrameCodec.DecodeAppend | server.js:101-149 | Decoding a buffer with more bytes appended gives the same as decoding the buffer, then decoding its remainder with the new bytes. Once a close frame is decoded, later bytes change nothing. |
| FrameCodec.ConsumedPrefix | server.js:145-148 | Without a close, the buffer is the consumed frames followed by the remainder. The consumed part alone decodes to the same messages and leaves nothing. |
| Bytes.BigEndianRoundTrip | server.js:30-34 | Reading back a number written big-endian into w bytes (w = 2 or 8 in the source) gives the number. |
| Bytes.BigEndianReadWrite | server.js:115-119 | Writing back a big-endian field that was read gives the same bytes. |
| Bytes.Mask | server.js:135-141 | Masking keeps the payload's length, and XOR-ing each masked byte with key byte i mod 4 again gives back payload byte i. |
| Bytes.MaskInvolutive | server.js:135-141 | Masking twice with the same key gives back the payload, so unmasking inverts the client's masking. |
| Bytes.Unmask | server.js:137-140 | The loop XORs byte i with key byte i mod 4 and keeps the payload's length. |
| Session.Feed | server.js:211-214 | After a data event the kept buffer never starts with a complete frame. It is empty after a close frame. Otherwise it is a suffix of the old buffer followed by the chunk. |
| Session.ChunkingAgrees | server.js:209-214 | However the bytes are split into data events, the handler passes on the messages and keeps the buffer that decoding all the bytes at once gives. With a close frame, the run reports it and its messages start with everything decoded before the close. |
| Orders.Snapshot | server.js:48-56 | `orders.map(normalizeOrder)` lists every order, in order, with the fields unchanged. |
| Orders.CreateOrder | server.js:72-84 | The new order takes the counter's id and the counter moves on by one. The order goes at the end and the old orders are kept. A falsy table becomes 'Sin mesa', and items that are not an array become []. The status is 'pending' and the timestamp is the current time. |
| Orders.SetStatus | server.js:87-93 | Length, order, ids, tables, items and timestamps are kept, and so is the counter. A status changes only for an order whose id is `===` the requested id, and only to a truthy status. Such an order always gets that status. |
| Orders.Dispatch | server.js:58-99 | `get_state` replies to the sender with the current orders. Unparsable text replies "invalid message" and any other type replies "unknown type". None of these change the store. `new_order` and `update_status` broadcast the state after the change. |
| Orders.DispatchAsWritten | server.js:58-99 | The handler as written has no outcome (it throws) exactly for the document `null`. `get_state`, unparsable text and unknown types reply and keep the store; `new_order` and `update_status` broadcast the state after the change. |
| Orders.DispatchAgreesExceptNull | server.js:58-99 | The handler as written and the corrected dispatcher give the same store and outcome exactly on the requests other than `null`. |
| Orders.NullDocumentCrashes | server.js:67 | For `null`, the handler as written has no outcome (it throws). The corrected one replies with the unknown-type error and leaves the store alone. |
| Orders.InitialStoreValid | server.js:10-11 | The empty list with counter 1 satisfies the id invariant. |
| Orders.DispatchPreservesValid | server.js:72-95 | Every message keeps ids strictly increasing along the list and below the counter. The counter never goes back. |
| Orders.UnknownIdIsNoOp | server.js:87-95 | An `update_status` whose id matches no order leaves the store as it was and still broadcasts the state. |
| Orders.SetStatusIdempotent | server.js:88-93 | Applying the same status update twice gives the same store as applying it once. |
| Orders.CreateManyIds | server.js:74-82 | N `new_order` messages append N orders with ids nextId, nextId+1, ... in arrival order. The earlier orders are kept and the id invariant holds. |
| Server.AcceptUpgrade | server.js:181-205 | The upgrade is accepted exactly when the URL is "/ws" and a non-empty key is present. The answer starts with the 101 status line. Read back line by line it is exactly the status line, `Upgrade: websocket`, `Connection: Upgrade` and `Sec-WebSocket-Accept` carrying the digest of the key followed by the RFC 6455 GUID, then the empty line that ends the head. |
| Server.HandshakeResponse | server.js:198-205 | The four header lines joined by CRLF and followed by two more CRLFs start with the status line and split back into the four lines and two empty strings. |
| Server.SplitJoin | server.js:205 | Lines without a carriage return, joined by CRLF and followed by CRLF and any text, split back into the same lines followed by the split of that text. |
| Server.Register | server.js:206 | After `clients.add` the registry holds exactly the old members plus the connection. A registry without duplicates keeps none. |
| Server.Unregister | server.js:223-229 | After `clients.delete` the registry holds exactly the old members other than the connection, with no duplicates added. |
| Server.UnregisterIdempotent | server.js:223-229 | Removing a connection twice (both `close` and `error` fire) is the same as removing it once. |
| Server.FanoutReachesEachOnce | server.js:41-46 | A broadcast sends exactly once to each registered connection and to no one else. |
| Server.Fanout | server.js:41-46 | A broadcast is one send of the same frame per registered connection, in the registry's order. |
| Server.Deliver | server.js:63-98 | Every action sends the encoded outgoing message. A reply reaches the sender once and no one else. A broadcast reaches each registered connection once and no one else. |
| Server.FanoutOutsider | server.js:43-45 | A broadcast sends nothing to a connection that is not registered. |
| Server.RepliesOnlyToSender | server.js:58-99 | With the corrected dispatcher, `get_state`, an unknown type, `null` and unparsable text produce exactly one frame, sent to the sender. No other connection receives anything. |
| Server.OnUpgrade | server.js:181-209 | A refused upgrade destroys the socket and changes nothing. An accepted one writes the handshake and adds the connection to the registry, keeping every other member. It gives the connection an empty buffer and keeps every other buffer. It then sends that connection the current orders and leaves the store alone. |
| Server.OnData | server.js:211-221 | With the corrected dispatcher, a data event leaves the registry and every other connection's buffer as they were. The connection's new buffer is the decoder's remainder after the old buffer and the chunk (Session.Feed), so it never starts with a complete frame. The store is what handling the decoded messages in turn makes of it, and the actions are exactly the frames handling sends, in order (Server.HandleAll), followed by ending the socket when a close frame was decoded. A registered sender receives exactly one frame per decoded message. The event only sends frames, plus ending the socket. It ends the socket exactly when a close frame was decoded, and only after every reply and broadcast. |
| Server.OnDisconnect | server.js:223-229 | `close` or `error` takes the connection out of the registry and leaves the store and buffers alone. |
| Server.InitialServerValid | server.js:9-11 | The server starts with a valid store, an empty registry and no buffers. |
| Server.HandleAll | server.js:215-217 | With the corrected dispatcher: no message leaves the store alone and sends nothing. One message is dispatched and its outcome delivered (Orders.Dispatch, Server.Deliver). Handling only sends frames, and a registered sender receives exactly one frame per message (its reply, or the broadcast it caused). |
| Server.HandleAllAppend | server.js:215-217 | Handling two runs of messages one after the other, the second on the store the first leaves, gives the same store and the same frames, in order, as handling their concatenation. With Server.HandleAll's one-message case this pins the loop to dispatching each message in turn. |
| Server.HandleAllPreservesValid | server.js:215-217 | Handling all messages decoded from one chunk keeps the store's id invariant. |
| Server.HandleAllSkipsOutsiders | server.js:215-217 | While a chunk's messages are handled, a connection that is neither registered nor the sender receives nothing. |
| Server.EventsPreserveValid | server.js:181-229 | Upgrade, data, close and error events each keep the store valid and the registry free of duplicates. Each also keeps every stored buffer free of a complete frame. |
| Server.ClosedConnectionHearsNothing | server.js:223-229 | After a connection has closed or failed, no data event from another connection sends it a frame, broadcasts included. |

## Left out

- Sockets, the event loop and write ordering are not modelled. Events are functions that return lists of actions (write text, send frame, end, destroy).
- The static file handler (server.js:151-179) is left out, including its 426 answer to a plain HTTP request for `/ws`. So are `server.listen` and the log line. They are outside the WebSocket core.
- SHA-1 and base64 of the accept key are a parameter `digest: string -> string`.
- UTF-8 decoding of a payload (`payload.toString('utf8')`) together with `JSON.parse` is a parameter `parse: seq<byte> -> Request`. The decoder hands on payload bytes. The parser classifies each payload: unparsable text, the document `null`, one of the three known types with its optional fields, or an unknown type.
- `JSON.stringify` followed by `Buffer.from` is a parameter `stringify: OutMsg -> Payload`.
- `new Date().toISOString()` is a parameter `now`. One timestamp serves every message handled in one data event, whereas the source reads the clock once per `new_order`.
- JSON numbers are exact reals. The id comparison `===` is modelled as equality of a JSON number with the order's id, with no double rounding.
- FrameCodec.ReadHeader: the 64-bit length is an exact natural number. The source converts it with `Number(...)`, which rounds above 2^53. Such frames cannot be buffered in practice.
- FrameCodec.Encode: requires a payload shorter than 2^64 bytes. `writeBigUInt64BE` throws beyond that, and no Buffer is that large.
- Server.Register: the registry is a sequence in insertion order, like a JS `Set`. The lemmas state membership and how many frames each connection receives, not the order in which connections are written to.
- Server.OnData: its contract ties the store and the whole action list to Server.HandleAll: the handled frames, then `End` exactly when a close frame was decoded, and nothing else. What each frame holds and whom it reaches is stated through Server.HandleAll, Server.HandleAllAppend and Server.Deliver, not in its own ensures.
- Server.OnData: uses the corrected dispatcher (Orders.Dispatch). In the source, a `null` document throws inside the `data` listener (server.js:67, reached from server.js:216). The rest of the chunk is then not handled and `socket.end()` is not reached. The contract does not model that crash; Orders.DispatchAsWritten and the finding below do.
- Server.HandleAll: uses the corrected dispatcher, so a `null` document gets an error reply. The source throws there and handles no later message of the chunk.
- Server.RepliesOnlyToSender: states the corrected dispatcher's reply to `null`. The source sends nothing for `null` and throws.
- After a close frame, `socket.end()` only half-closes the socket, so later data events are still decoded and handled. Session.Run models this, and Session.ChunkingAgrees therefore only says that a run with a close begins with the messages decoded before it.
- The literal error text at server.js:63 contains the two characters U+00C3 U+00A1 where "á" was evidently meant (a UTF-8 file read as Latin-1). The model keeps the characters as written.

## Findings

| source | as written | input that shows it | evidently intended | confidence | as-written member | corrected member |
|---|---|---|---|---|---|---|
| server.js:67 | `parsed.type` is read from whatever `JSON.parse` returned. For the document `null` this throws a TypeError inside the `data` listener, which nothing catches. | A masked text frame whose payload is the four bytes `null` | An error reply to the sender, as for any other document without a known type, with the store unchanged | high, not executed | Orders.DispatchAgreesExceptNull (Orders.DispatchAsWritten, Orders.NullDocumentCrashes) | Orders.Dispatch |

=== FILE: bytes.dfy ===
/**
  Byte-level helpers used by the frame codec: big-endian unsigned integers
  (Node's `readUInt16BE`/`writeUInt16BE` and `readBigUInt64BE`/`writeBigUInt64BE`)
  and the XOR masking of RFC 6455 section 5.3.
 */
module Bytes {

  /** An octet, as Node's Buffer holds them. */
  newtype byte = x: int | 0 <= x < 256

  /** 2^w. */
  function Pow2(w: nat): (r: nat)
    ensures r >= 1
  {
    if w == 0 then 1 else 2 * Pow2(w - 1)
  }

  /** Bitwise exclusive or of the low `width` bits of `a` and `b`, least significant bit first. */
  function XorBits(a: nat, b: nat, width: nat): (r: nat)
    ensures r < Pow2(width)
  {
    if width == 0 then 0
    else (a % 2 + b % 2) % 2 + 2 * XorBits(a / 2, b / 2, width - 1)
  }

  /** JavaScript's `^` on two Buffer elements. */
  function Xor(a: byte, b: byte): byte
  {
    XorBits(a as nat, b as nat, 8) as byte
  }

  /** Exclusive or with the same bits twice cancels out. */
  lemma {:induction false} XorBitsTwice(a: nat, k: nat, width: nat)
    requires a < Pow2(width)
    ensures XorBits(XorBits(a, k, width), k, width) == a
  {
    if width > 0 {
      var x := XorBits(a, k, width);
      var low := (a % 2 + k % 2) % 2;
      var high := XorBits(a / 2, k / 2, width - 1);
      LowBitAndRest(low, high);
      XorBitsTwice(a / 2, k / 2, width - 1);
      LowBitTwice(a % 2, k % 2);
      assert a == a % 2 + 2 * (a / 2);
    }
  }

  /** A bit and a number above it are recovered by `% 2` and `/ 2`. */
  lemma LowBitAndRest(low: nat, high: nat)
    requires low < 2
    ensures (low + 2 * high) % 2 == low && (low + 2 * high) / 2 == high
  {
  }

  /** On single bits, adding the same bit twice modulo 2 cancels out. */
  lemma LowBitTwice(a: nat, k: nat)
    requires a < 2 && k < 2
    ensures ((a + k) % 2 + k) % 2 == a
  {
  }

  /** Exclusive or with the same key byte twice cancels out. */
  lemma XorTwice(a: byte, k: byte)
    ensures Xor(Xor(a, k), k) == a
  {
    XorBitsTwice(a as nat, k as nat, 8);
  }

  /** 256^w: the number of values a `w`-byte unsigned field can hold. */
  function Pow256(w: nat): (r: nat)
    ensures r >= 1
  {
    if w == 0 then 1 else 256 * Pow256(w - 1)
  }

  /** The `w`-byte big-endian representation of `n`, most significant byte first. */
  function ToBigEndian(n: nat, w: nat): (r: seq<byte>)
    requires n < Pow256(w)
    ensures |r| == w
  {
    if w == 0 then []
    else
      assert n / 256 < Pow256(w - 1);
      ToBigEndian(n / 256, w - 1) + [(n % 256) as byte]
  }

  /** The unsigned value of a big-endian byte string. */
  function FromBigEndian(s: seq<byte>): (r: nat)
    ensures r < Pow256(|s|)
  {
    if |s| == 0 then 0
    else
      var high := FromBigEndian(s[..|s| - 1]);
      assert high * 256 + 255 < Pow256(|s|) by {
        assert high <= Pow256(|s| - 1) - 1;
      }
      high * 256 + s[|s| - 1] as nat
  }

  /** Division by 256 separates the low byte from the rest. */
  lemma SplitLowByte(high: nat, low: nat)
    requires low < 256
    ensures (high * 256 + low) / 256 == high && (high * 256 + low) % 256 == low
  {
  }

  /** Reading back what was written yields the number written. */
  lemma {:induction false} BigEndianRoundTrip(n: nat, w: nat)
    requires n < Pow256(w)
    ensures FromBigEndian(ToBigEndian(n, w)) == n
  {
    if w > 0 {
      var s := ToBigEndian(n, w);
      assert s[..w - 1] == ToBigEndian(n / 256, w - 1);
      BigEndianRoundTrip(n / 256, w - 1);
      assert s[w - 1] as nat == n % 256;
      calc {
        FromBigEndian(s);
        FromBigEndian(s[..w - 1]) * 256 + s[w - 1] as nat;
        (n / 256) * 256 + n % 256;
        n;
      }
    }
  }

  /** Writing back what was read reproduces the bytes read. */
  lemma {:induction false} BigEndianReadWrite(s: seq<byte>)
    ensures ToBigEndian(FromBigEndian(s), |s|) == s
  {
    if |s| > 0 {
      var n := FromBigEndian(s);
      var init, last := s[..|s| - 1], s[|s| - 1];
      var high := FromBigEndian(init);
      assert n == high * 256 + last as nat;
      SplitLowByte(high, last as nat);
      BigEndianReadWrite(init);
      assert ToBigEndian(n, |s|) == ToBigEndian(high, |s| - 1) + [last];
      assert s == init + [last];
    }
  }

  /** The masking-key byte applied to payload byte `i`. */
  function KeyByte(key: seq<byte>, i: nat): byte
    requires |key| == 4
  {
    key[i % 4]
  }

  /**
    Byte `i` of the payload XOR-ed with byte `i mod 4` of the masking key;
    each masked byte gives back its payload byte under the same key byte.
   */
  function Mask(payload: seq<byte>, key: seq<byte>): (r: seq<byte>)
    requires |key| == 4
    ensures |r| == |payload|
    ensures forall i {:trigger Xor(r[i], KeyByte(key, i))} :: 0 <= i < |r| ==> Xor(r[i], KeyByte(key, i)) == payload[i]
  {
    var r := seq(|payload|, i requires 0 <= i < |payload| => Xor(payload[i], key[i % 4]));
    assert forall i :: 0 <= i < |r| ==> Xor(r[i], KeyByte(key, i)) == payload[i] by {
      forall i | 0 <= i < |r| {
        XorTwice(payload[i], key[i % 4]);
      }
    }
    r
  }

  /** Masking twice with the same key gives back the original payload. */
  lemma MaskInvolutive(payload: seq<byte>, key: seq<byte>)
    requires |key| == 4
    ensures Mask(Mask(payload, key), key) == payload
  {
    var once := Mask(payload, key);
    forall i | 0 <= i < |payload|
      ensures Mask(once, key)[i] == payload[i]
    {
      assert Mask(once, key)[i] == Xor(once[i], KeyByte(key, i));
    }
  }

  /**
    The unmasking loop of the decoder: a fresh buffer of the payload's
    length filled byte by byte with `Xor(payload[i], key[i % 4])`.
   */
  method Unmask(payload: seq<byte>, key: seq<byte>) returns (out: seq<byte>)
    requires |key| == 4
    ensures |out| == |payload|
    ensures forall i :: 0 <= i < |payload| ==> out[i] == Xor(payload[i], key[i % 4])
    ensures out == Mask(payload, key)
  {
    out := [];
    var i := 0;
    while i < |payload|
      invariant 0 <= i <= |payload|
      invariant |out| == i
      invariant forall j :: 0 <= j < i ==> out[j] == Xor(payload[j], key[j % 4])
    {
      out := out + [Xor(payload[i], key[i % 4])];
      i := i + 1;
    }
  }
}

=== FILE: frame_codec.dfy ===
/**
  The hand-rolled RFC 6455 base framing (section 5.2) of server.js: the server
  side encoder `sendFrame` (the bytes it writes, without the socket) and the
  incremental decoder `decodeFrames`, including client masking (section 5.3).

  `DecodeFrames` is the recursive reference definition on the shrinking buffer;
  `DecodeFramesLoop` is the offset-based while loop of the source, proved equal
  to it.
 */
module FrameCodec {
  import opened Wrappers
  import opened Bytes

  /** Frames whose payload length fits the 64-bit length field. */
  const MaxPayload: nat := 0x1_0000_0000_0000_0000

  /** FIN set, opcode 0x1 (text): the only first byte the server ever sends. */
  const TextFrameHead: byte := 0x81

  /** The connection close control opcode. */
  const CloseOpcode: byte := 0x8

  /** A payload the 64-bit length field can describe. */
  type Payload = p: seq<byte> | |p| < MaxPayload

  /** `firstByte & 0x0f`, the low nibble of byte 0; FIN and RSV bits are not looked at. */
  function Opcode(b0: byte): byte
  {
    b0 % 16
  }

  /** `secondByte & 0x80` is set: the high bit of byte 1. */
  predicate IsMasked(b1: byte)
  {
    b1 >= 128
  }

  /** `secondByte & 0x7f`: a literal length, or the escape 126 or 127. */
  function LengthCode(b1: byte): nat
  {
    (b1 % 128) as nat
  }

  /**
    The frame `sendFrame` writes for `p`: header byte 0x81, then the length in
    the smallest of the three tiers, then the payload, never masked.
   */
  function Encode(p: Payload): (r: seq<byte>)
    ensures |r| >= 2 + |p| && r[0] == TextFrameHead
    ensures |p| < 126 ==> |r| == 2 + |p| && r[1] as nat == |p|
    ensures 126 <= |p| < 65536 ==>
              |r| == 4 + |p| && r[1] == 126 && FromBigEndian(r[2..4]) == |p|
    ensures 65536 <= |p| ==>
              |r| == 10 + |p| && r[1] == 127 && FromBigEndian(r[2..10]) == |p|
    ensures r[|r| - |p|..] == p
  {
    var header: seq<byte> :=
      if |p| < 126 then [0, |p| as byte]
      else if |p| < 65536 then [0, 126] + ToBigEndian(|p|, 2)
      else [0, 127] + ToBigEndian(|p|, 8);
    var r := header[0 := TextFrameHead] + p;
    LengthTiers(|p|);
    assert r[|header|..] == p;
    assert |p| >= 126 ==> r[2..|header|] == header[2..];
    r
  }

  /** The three length tiers read back the length they were written with. */
  lemma LengthTiers(n: nat)
    requires n < MaxPayload
    ensures 126 <= n < 65536 ==> FromBigEndian(ToBigEndian(n, 2)) == n
    ensures 65536 <= n ==> FromBigEndian(ToBigEndian(n, 8)) == n
  {
    if n < 126 {
    } else if n < 65536 {
      BigEndianRoundTrip(n, 2);
    } else {
      BigEndianRoundTrip(n, 8);
    }
  }

  /** What the decoder reads from a frame header. */
  datatype Header = Header(opcode: byte, masked: bool, payloadLength: nat, headerLength: nat)
  {
    function MaskKeyLength(): nat
    {
      if masked then 4 else 0
    }

    /** Header, masking key and payload together. */
    function FrameLength(): nat
    {
      headerLength + MaskKeyLength() + payloadLength
    }
  }

  /**
    The header at the start of `buf`, or None while the buffer does not yet
    hold all 2, 4 or 10 header bytes the length code announces.
   */
  function ParseHeader(buf: seq<byte>): (h: Option<Header>)
    ensures h.Some? ==> h.value.headerLength in {2, 4, 10} && h.value.headerLength <= |buf|
    ensures h.Some? ==> h.value.opcode == Opcode(buf[0]) && h.value.masked == IsMasked(buf[1])
  {
    if |buf| < 2 then None
    else
      var code := LengthCode(buf[1]);
      if code == 126 then
        if |buf| < 4 then None
        else Some(Header(Opcode(buf[0]), IsMasked(buf[1]), FromBigEndian(buf[2..4]), 4))
      else if code == 127 then
        if |buf| < 10 then None
        else Some(Header(Opcode(buf[0]), IsMasked(buf[1]), FromBigEndian(buf[2..10]), 10))
      else
        Some(Header(Opcode(buf[0]), IsMasked(buf[1]), code, 2))
  }

  /**
    The header fields as the length code selects them: a literal length with a
    2-byte header, or a 16-bit or 64-bit big-endian length with a 4- or 10-byte
    header; the header is incomplete exactly while those bytes are missing.
   */
  lemma ParseHeaderFields(buf: seq<byte>)
    ensures var h := ParseHeader(buf);
      && (h.None? <==> |buf| < 2 || (LengthCode(buf[1]) == 126 && |buf| < 4) || (LengthCode(buf[1]) == 127 && |buf| < 10))
      && (h.Some? && LengthCode(buf[1]) < 126 ==>
            h.value.headerLength == 2 && h.value.payloadLength == LengthCode(buf[1]))
      && (h.Some? && LengthCode(buf[1]) == 126 ==>
            h.value.headerLength == 4 && h.value.payloadLength == FromBigEndian(buf[2..4]))
      && (h.Some? && LengthCode(buf[1]) == 127 ==>
            h.value.headerLength == 10 && h.value.payloadLength == FromBigEndian(buf[2..10]))
  {
  }

  /** The buffer does not start with a complete frame: decoding must wait for more bytes. */
  predicate Stalled(buf: seq<byte>)
  {
    match ParseHeader(buf)
    case None => true
    case Some(h) => |buf| < h.FrameLength()
  }

  /** The payload of the complete frame at the start of `buf`, unmasked when the mask bit is set. */
  function FramePayload(buf: seq<byte>, h: Header): seq<byte>
    requires h.FrameLength() <= |buf|
  {
    var body := buf[h.headerLength + h.MaskKeyLength()..h.FrameLength()];
    if h.masked then Mask(body, buf[h.headerLength..h.headerLength + 4]) else body
  }

  /** The result of `decodeFrames`. */
  datatype Decoded = Decoded(messages: seq<seq<byte>>, remaining: seq<byte>, closed: bool)

  /** `d` preceded by the messages already decoded from earlier frames. */
  function After(earlier: seq<seq<byte>>, d: Decoded): Decoded
  {
    Decoded(earlier + d.messages, d.remaining, d.closed)
  }

  lemma AfterAfter(first: seq<seq<byte>>, second: seq<seq<byte>>, d: Decoded)
    ensures After(first, After(second, d)) == After(first + second, d)
  {
    assert first + (second + d.messages) == (first + second) + d.messages;
  }

  lemma AfterNothing(d: Decoded)
    ensures After([], d) == d
  {
    assert [] + d.messages == d.messages;
  }

  predicate IsSuffix(suffix: seq<byte>, whole: seq<byte>)
  {
    |suffix| <= |whole| && whole[|whole| - |suffix|..] == suffix
  }

  /**
    Decodes every complete frame at the front of `buf`, stopping at the first
    incomplete one or at a complete close frame (`DecodeFramesShape` states
    what the remainder is).
   */
  function DecodeFrames(buf: seq<byte>): Decoded
    decreases |buf|
  {
    match ParseHeader(buf)
    case None => Decoded([], buf, false)
    case Some(h) =>
      if |buf| < h.FrameLength() then Decoded([], buf, false)
      else if h.opcode == CloseOpcode then Decoded([], [], true)
      else
        After([FramePayload(buf, h)], DecodeFrames(buf[h.FrameLength()..]))
  }

  /**
    A complete close frame ends decoding with an empty remainder; otherwise
    the remainder is the suffix of the input that starts at the first
    incomplete frame, so it never holds a complete frame itself.
   */
  lemma {:induction false} DecodeFramesShape(buf: seq<byte>)
    ensures var r := DecodeFrames(buf);
      && (r.closed ==> r.remaining == [])
      && (!r.closed ==> IsSuffix(r.remaining, buf) && Stalled(r.remaining))
    decreases |buf|
  {
    match ParseHeader(buf)
    case None =>
    case Some(h) =>
      if |buf| >= h.FrameLength() && h.opcode != CloseOpcode {
        var f := h.FrameLength();
        DecodeFramesShape(buf[f..]);
        var r := DecodeFrames(buf[f..]);
        if !r.closed {
          assert buf[f..][|buf[f..]| - |r.remaining|..] == buf[|buf| - |r.remaining|..];
        }
      }
  }

  /**
    The header-reading part of the source's loop body at `offset`: `complete`
    is false where the loop breaks for want of header bytes.
   */
  method ReadHeader(buffer: seq<byte>, offset: nat) returns (complete: bool, h: Header)
    requires offset + 2 <= |buffer|
    ensures complete <==> ParseHeader(buffer[offset..]).Some?
    ensures complete ==> ParseHeader(buffer[offset..]) == Some(h)
  {
    ghost var rest := buffer[offset..];
    var firstByte := buffer[offset];
    var secondByte := buffer[offset + 1];
    assert firstByte == rest[0] && secondByte == rest[1];
    var opcode := Opcode(firstByte);
    var masked := IsMasked(secondByte);
    var payloadLength: nat := LengthCode(secondByte);
    var headerLength := 2;
    if payloadLength == 126 {
      if offset + 4 > |buffer| {
        return false, Header(opcode, masked, payloadLength, headerLength);
      }
      payloadLength := FromBigEndian(buffer[offset + 2..offset + 4]);
      assert buffer[offset + 2..offset + 4] == rest[2..4];
      headerLength := 4;
    } else if payloadLength == 127 {
      if offset + 10 > |buffer| {
        return false, Header(opcode, masked, payloadLength, headerLength);
      }
      payloadLength := FromBigEndian(buffer[offset + 2..offset + 10]);
      assert buffer[offset + 2..offset + 10] == rest[2..10];
      headerLength := 10;
    }
    complete, h := true, Header(opcode, masked, payloadLength, headerLength);
  }

  /** Slicing at an offset is slicing the suffix that starts there. */
  lemma SliceOfSuffix(s: seq<byte>, offset: nat, lo: nat, hi: nat)
    requires lo <= hi && offset + hi <= |s|
    ensures s[offset..][lo..hi] == s[offset + lo..offset + hi]
  {
  }

  /** The payload-extraction part of the source's loop body, unmasking when the mask bit is set. */
  method ReadPayload(buffer: seq<byte>, offset: nat, h: Header) returns (payload: seq<byte>)
    requires offset + h.FrameLength() <= |buffer|
    ensures payload == FramePayload(buffer[offset..], h)
  {
    var start := h.headerLength + h.MaskKeyLength();
    var body := buffer[offset + start..offset + start + h.payloadLength];
    SliceOfSuffix(buffer, offset, start, h.FrameLength());
    if h.masked {
      var mask := buffer[offset + h.headerLength..offset + h.headerLength + 4];
      SliceOfSuffix(buffer, offset, h.headerLength, h.headerLength + 4);
      payload := Unmask(body, mask);
    } else {
      payload := body;
    }
  }

  /** One step of the reference decoder on a buffer whose first frame is complete and not a close frame. */
  lemma DecodeFirstFrame(buf: seq<byte>, h: Header)
    requires ParseHeader(buf) == Some(h) && h.FrameLength() <= |buf| && h.opcode != CloseOpcode
    ensures DecodeFrames(buf) == After([FramePayload(buf, h)], DecodeFrames(buf[h.FrameLength()..]))
  {
  }

  /** A buffer that does not start with a complete frame decodes to nothing and is kept whole. */
  lemma DecodeStalled(buf: seq<byte>)
    requires Stalled(buf)
    ensures DecodeFrames(buf) == Decoded([], buf, false)
  {
  }

  /** A complete close frame at the front ends decoding with nothing kept. */
  lemma DecodeClose(buf: seq<byte>, h: Header)
    requires ParseHeader(buf) == Some(h) && h.FrameLength() <= |buf| && h.opcode == CloseOpcode
    ensures DecodeFrames(buf) == Decoded([], [], true)
  {
  }

  /** What one turn of the decoding loop finds at the current offset. */
  datatype Turn = Wait | Close | Frame(payload: seq<byte>, next: nat)

  /** `buf` starts with a complete close frame. */
  predicate CloseAt(buf: seq<byte>)
  {
    match ParseHeader(buf)
    case None => false
    case Some(h) => h.FrameLength() <= |buf| && h.opcode == CloseOpcode
  }

  /** `buf` starts with a complete frame of `length` bytes, not a close frame, that carries `payload`. */
  predicate FrameAt(buf: seq<byte>, payload: seq<byte>, length: nat)
  {
    match ParseHeader(buf)
    case None => false
    case Some(h) =>
      h.FrameLength() == length <= |buf| && h.opcode != CloseOpcode && payload == FramePayload(buf, h)
  }

  /**
    One turn of the source's decoding loop: read the header at `offset`, wait
    if it or its frame is incomplete, stop at a close frame, and otherwise
    extract the payload and step past the frame.
   */
  method DecodeTurn(buffer: seq<byte>, offset: nat) returns (t: Turn)
    requires offset + 2 <= |buffer|
    ensures t.Wait? <==> Stalled(buffer[offset..])
    ensures t.Close? <==> CloseAt(buffer[offset..])
    ensures t.Frame? ==> offset < t.next <= |buffer| && FrameAt(buffer[offset..], t.payload, t.next - offset)
  {
    var complete, h := ReadHeader(buffer, offset);
    if !complete {
      return Wait;
    }
    var frameLength := h.FrameLength();
    if offset + frameLength > |buffer| {
      return Wait;
    }
    if h.opcode == CloseOpcode {
      return Close;
    }
    var payload := ReadPayload(buffer, offset, h);
    return Frame(payload, offset + frameLength);
  }

  /** Leaving the decoding loop at an incomplete frame keeps the rest of the buffer. */
  lemma LoopStalled(buffer: seq<byte>, offset: nat, messages: seq<seq<byte>>)
    requires offset <= |buffer| && Stalled(buffer[offset..])
    ensures After(messages, DecodeFrames(buffer[offset..])) == Decoded(messages, buffer[offset..], false)
  {
    DecodeStalled(buffer[offset..]);
    assert messages + [] == messages;
  }

  /** Leaving the decoding loop at a complete close frame drops the rest of the buffer. */
  lemma LoopClosed(buffer: seq<byte>, offset: nat, messages: seq<seq<byte>>)
    requires offset <= |buffer| && CloseAt(buffer[offset..])
    ensures After(messages, DecodeFrames(buffer[offset..])) == Decoded(messages, [], true)
  {
    var h := ParseHeader(buffer[offset..]).value;
    DecodeClose(buffer[offset..], h);
    assert messages + [] == messages;
  }

  /** A turn that finds a frame moves its payload from the undecoded part to the messages. */
  lemma LoopStep(buffer: seq<byte>, offset: nat, messages: seq<seq<byte>>, payload: seq<byte>, next: nat)
    requires offset < next <= |buffer| && FrameAt(buffer[offset..], payload, next - offset)
    ensures After(messages, DecodeFrames(buffer[offset..])) == After(messages + [payload], DecodeFrames(buffer[next..]))
  {
    var rest := buffer[offset..];
    var h := ParseHeader(rest).value;
    assert buffer[next..] == rest[h.FrameLength()..];
    DecodeFirstFrame(rest, h);
    AfterAfter(messages, [payload], DecodeFrames(buffer[next..]));
  }

  /**
    The source's decoding loop: walks an offset through the buffer, stops at
    the first incomplete header or frame, returns at once on a close frame.
   */
  method DecodeFramesLoop(buffer: seq<byte>) returns (messages: seq<seq<byte>>, remaining: seq<byte>, closed: bool)
    ensures Decoded(messages, remaining, closed) == DecodeFrames(buffer)
  {
    messages := [];
    var offset := 0;
    while offset + 2 <= |buffer|
      invariant 0 <= offset <= |buffer|
      invariant DecodeFrames(buffer) == After(messages, DecodeFrames(buffer[offset..]))
      decreases |buffer| - offset
    {
      var t := DecodeTurn(buffer, offset);
      match t
      case Wait =>
        LoopStalled(buffer, offset, messages);
        return messages, buffer[offset..], false;
      case Close =>
        LoopClosed(buffer, offset, messages);
        return messages, [], true;
      case Frame(payload, next) =>
        LoopStep(buffer, offset, messages, payload, next);
        messages, offset := messages + [payload], next;
    }
    LoopStalled(buffer, offset, messages);
    remaining := buffer[offset..];
    closed := false;
  }

  /** Byte 1 of a frame: the mask bit over a 7-bit length code. */
  function SecondByte(masked: bool, code: nat): byte
    requires code < 128
  {
    (if masked then 0x80 + code else code) as byte
  }

  lemma SecondByteFields(masked: bool, code: nat)
    requires code < 128
    ensures LengthCode(SecondByte(masked, code)) == code
    ensures IsMasked(SecondByte(masked, code)) == masked
  {
  }

  /** Byte 1 and the extended length field, in the smallest tier that holds `n`. */
  function LengthField(masked: bool, n: nat): seq<byte>
    requires n < MaxPayload
  {
    if n < 126 then [SecondByte(masked, n)]
    else if n < 65536 then [SecondByte(masked, 126)] + ToBigEndian(n, 2)
    else [SecondByte(masked, 127)] + ToBigEndian(n, 8)
  }

  /**
    A frame as any RFC 6455 peer may build it: an arbitrary first byte (FIN,
    RSV bits and opcode), the length in its tier, and, for a client, the
    masking key followed by the masked payload.
   */
  function BuildFrame(first: byte, key: Option<seq<byte>>, p: Payload): seq<byte>
    requires key.Some? ==> |key.value| == 4
  {
    match key
    case None => [first] + LengthField(false, |p|) + p
    case Some(k) => [first] + LengthField(true, |p|) + k + Mask(p, k)
  }

  /** The header the decoder reads from a built frame. */
  function BuiltHeader(first: byte, key: Option<seq<byte>>, p: Payload): Header
  {
    Header(Opcode(first), key.Some?, |p|, if |p| < 126 then 2 else if |p| < 65536 then 4 else 10)
  }

  /** What `sendFrame` writes is the unmasked text frame of its payload. */
  lemma EncodeIsTextFrame(p: Payload)
    ensures Encode(p) == BuildFrame(TextFrameHead, None, p)
  {
    var e := Encode(p);
    var hl := if |p| < 126 then 2 else if |p| < 65536 then 4 else 10;
    if |p| < 126 {
      ShortLengthField(p);
    } else if |p| < 65536 {
      MediumLengthField(p);
    } else {
      LongLengthField(p);
    }
    assert e == [e[0]] + e[1..hl] + e[hl..];
  }

  lemma ShortLengthField(p: Payload)
    requires |p| < 126
    ensures Encode(p)[1..2] == LengthField(false, |p|)
  {
    SecondByteFields(false, |p|);
  }

  lemma MediumLengthField(p: Payload)
    requires 126 <= |p| < 65536
    ensures Encode(p)[1..4] == LengthField(false, |p|)
  {
    var e := Encode(p);
    BigEndianReadWrite(e[2..4]);
    assert e[1..4] == [e[1]] + e[2..4];
  }

  lemma LongLengthField(p: Payload)
    requires 65536 <= |p|
    ensures Encode(p)[1..10] == LengthField(false, |p|)
  {
    var e := Encode(p);
    BigEndianReadWrite(e[2..10]);
    assert e[1..10] == [e[1]] + e[2..10];
  }

  /** A built frame, followed by anything, starts with the header it was built with. */
  lemma ParseBuiltFrame(first: byte, key: Option<seq<byte>>, p: Payload, rest: seq<byte>)
    requires key.Some? ==> |key.value| == 4
    ensures var h := BuiltHeader(first, key, p);
      && ParseHeader(BuildFrame(first, key, p) + rest) == Some(h)
      && h.FrameLength() == |BuildFrame(first, key, p)|
  {
    var n := |p|;
    var masked := key.Some?;
    var field := LengthField(masked, n);
    var tail := match key case None => p case Some(k) => k + Mask(p, k);
    var buf := BuildFrame(first, key, p) + rest;
    assert buf == [first] + field + (tail + rest);
    ParseTiers(first, masked, n, tail + rest);
  }

  /** The header read from a first byte, a length field in its tier, and anything after. */
  lemma ParseTiers(first: byte, masked: bool, n: nat, after: seq<byte>)
    requires n < MaxPayload
    ensures ParseHeader([first] + LengthField(masked, n) + after)
      == Some(Header(Opcode(first), masked, n, if n < 126 then 2 else if n < 65536 then 4 else 10))
  {
    var buf := [first] + LengthField(masked, n) + after;
    if n < 126 {
      SecondByteFields(masked, n);
      assert buf[1] == SecondByte(masked, n);
    } else if n < 65536 {
      SecondByteFields(masked, 126);
      assert buf[1] == SecondByte(masked, 126);
      assert buf[2..4] == ToBigEndian(n, 2);
      BigEndianRoundTrip(n, 2);
    } else {
      SecondByteFields(masked, 127);
      assert buf[1] == SecondByte(masked, 127);
      assert buf[2..10] == ToBigEndian(n, 8);
      BigEndianRoundTrip(n, 8);
    }
  }

  /**
    The decoder does not insist on the smallest tier: a 16-bit or 64-bit
    length field is read as written whatever the length it carries, even one
    that would have fitted a shorter field.
   */
  lemma WideLengthField(first: byte, masked: bool, n: nat, w: nat, after: seq<byte>)
    requires (w == 2 || w == 8) && n < Pow256(w)
    ensures ParseHeader([first, SecondByte(masked, if w == 2 then 126 else 127)] + ToBigEndian(n, w) + after)
      == Some(Header(Opcode(first), masked, n, 2 + w))
  {
    var code := if w == 2 then 126 else 127;
    var buf := [first, SecondByte(masked, code)] + ToBigEndian(n, w) + after;
    SecondByteFields(masked, code);
    assert buf[2..2 + w] == ToBigEndian(n, w);
    BigEndianRoundTrip(n, w);
  }

  /** A one-byte text frame whose length is written in the 16-bit field decodes like any other. */
  lemma PaddedLengthDecodes()
    ensures DecodeFrames([0x81, 126, 0, 1, 0x41]) == Decoded([[0x41]], [], false)
  {
    var buf: seq<byte> := [0x81, 126, 0, 1, 0x41];
    WideLengthField(0x81, false, 1, 2, [0x41]);
    assert ToBigEndian(1, 2) == [0, 1];
    assert buf == [0x81, SecondByte(false, 126)] + ToBigEndian(1, 2) + [0x41];
    var h := Header(1, false, 1, 4);
    assert buf[h.FrameLength()..] == [];
    assert FramePayload(buf, h) == [0x41];
    DecodeStalled([]);
  }

  /**
    Decoding a built frame followed by more bytes: a close opcode ends decoding
    with nothing kept; any other opcode (text, binary, continuation, ping, ...)
    yields the original payload, then whatever the rest decodes to.
   */
  lemma DecodeBuiltFrame(first: byte, key: Option<seq<byte>>, p: Payload, rest: seq<byte>)
    requires key.Some? ==> |key.value| == 4
    ensures DecodeFrames(BuildFrame(first, key, p) + rest) ==
      if Opcode(first) == CloseOpcode then Decoded([], [], true)
      else After([p], DecodeFrames(rest))
  {
    var frame := BuildFrame(first, key, p);
    var buf := frame + rest;
    var h := BuiltHeader(first, key, p);
    ParseBuiltFrame(first, key, p, rest);
    if Opcode(first) != CloseOpcode {
      assert buf[h.FrameLength()..] == rest;
      var body := buf[h.headerLength + h.MaskKeyLength()..h.FrameLength()];
      match key
      case None =>
        assert body == p;
      case Some(k) =>
        var head := [first] + LengthField(true, |p|);
        assert |head| == h.headerLength;
        assert buf == head + k + Mask(p, k) + rest;
        assert buf[h.headerLength..h.headerLength + 4] == k;
        assert body == Mask(p, k);
        MaskInvolutive(p, k);
      assert FramePayload(buf, h) == p;
      DecodeFirstFrame(buf, h);
    }
  }

  /** Decoding what `sendFrame` writes gives back exactly the payload sent, with nothing left over. */
  lemma RoundTrip(p: Payload)
    ensures DecodeFrames(Encode(p)) == Decoded([p], [], false)
  {
    var frame := BuildFrame(TextFrameHead, None, p);
    EncodeIsTextFrame(p);
    DecodeBuiltFrame(TextFrameHead, None, p, []);
    assert frame + [] == frame;
    DecodeStalled([]);
    assert After([p], Decoded([], [], false)) == Decoded([p], [], false);
  }

  /** A client text frame masked with any key decodes to the payload before masking. */
  lemma MaskedRoundTrip(key: seq<byte>, p: Payload)
    requires |key| == 4
    ensures DecodeFrames(BuildFrame(TextFrameHead, Some(key), p)) == Decoded([p], [], false)
  {
    var frame := BuildFrame(TextFrameHead, Some(key), p);
    DecodeBuiltFrame(TextFrameHead, Some(key), p, []);
    assert frame + [] == frame;
    DecodeStalled([]);
  }

  /** Two complete frames in one buffer decode to two messages in arrival order, nothing kept. */
  lemma TwoFrames(p: Payload, q: Payload)
    ensures DecodeFrames(Encode(p) + Encode(q)) == Decoded([p, q], [], false)
  {
    EncodeIsTextFrame(p);
    DecodeBuiltFrame(TextFrameHead, None, p, Encode(q));
    RoundTrip(q);
  }

  /** Bytes that follow a complete close frame are discarded. */
  lemma CloseDiscardsRest(first: byte, key: Option<seq<byte>>, p: Payload, rest: seq<byte>)
    requires key.Some? ==> |key.value| == 4
    requires Opcode(first) == CloseOpcode
    ensures DecodeFrames(BuildFrame(first, key, p) + rest) == Decoded([], [], true)
  {
    DecodeBuiltFrame(first, key, p, rest);
  }

  /** The payload of a frame depends only on the frame's own bytes. */
  lemma SamePayload(a: seq<byte>, b: seq<byte>, h: Header)
    requires ParseHeader(a) == Some(h) && ParseHeader(b) == Some(h)
    requires h.FrameLength() <= |a| && h.FrameLength() <= |b|
    requires a[..h.FrameLength()] == b[..h.FrameLength()]
    ensures FramePayload(a, h) == FramePayload(b, h)
  {
    var f := h.FrameLength();
    forall i | 0 <= i < f
      ensures a[i] == b[i]
    {
      assert a[i] == a[..f][i];
    }
    var lo := h.headerLength + h.MaskKeyLength();
    assert a[lo..f] == b[lo..f];
    if h.masked {
      assert a[h.headerLength..h.headerLength + 4] == b[h.headerLength..h.headerLength + 4];
    }
  }

  /** Appending bytes never changes a header that is already complete. */
  lemma ParseHeaderExtend(buf: seq<byte>, more: seq<byte>)
    requires ParseHeader(buf).Some?
    ensures ParseHeader(buf + more) == ParseHeader(buf)
  {
    var ext := buf + more;
    assert ext[0] == buf[0] && ext[1] == buf[1];
    if LengthCode(buf[1]) == 126 {
      assert ext[2..4] == buf[2..4];
    } else if LengthCode(buf[1]) == 127 {
      assert ext[2..10] == buf[2..10];
    }
  }

  /** A header already complete within the first `k` bytes is read the same from them. */
  lemma ParseHeaderPrefix(buf: seq<byte>, k: nat)
    requires ParseHeader(buf).Some? && ParseHeader(buf).value.headerLength <= k <= |buf|
    ensures ParseHeader(buf[..k]) == ParseHeader(buf)
  {
    var pre := buf[..k];
    assert pre[0] == buf[0] && pre[1] == buf[1];
    if LengthCode(buf[1]) == 126 {
      assert pre[2..4] == buf[2..4];
    } else if LengthCode(buf[1]) == 127 {
      assert pre[2..10] == buf[2..10];
    }
  }

  /**
    Decoding is stuck (no message, buffer kept whole, not closed) exactly when
    the buffer does not start with a complete frame.
   */
  lemma StalledIff(buf: seq<byte>)
    ensures Stalled(buf) <==> DecodeFrames(buf) == Decoded([], buf, false)
  {
    if !Stalled(buf) {
      var h := ParseHeader(buf).value;
      if h.opcode != CloseOpcode {
        DecodeFirstFrame(buf, h);
      }
    }
  }

  /** Every proper prefix of a frame decodes to nothing and is kept whole for later. */
  lemma TruncatedFrameWaits(first: byte, key: Option<seq<byte>>, p: Payload, k: nat)
    requires key.Some? ==> |key.value| == 4
    requires k < |BuildFrame(first, key, p)|
    ensures var frame := BuildFrame(first, key, p);
      DecodeFrames(frame[..k]) == Decoded([], frame[..k], false)
  {
    var frame := BuildFrame(first, key, p);
    ParseBuiltFrame(first, key, p, []);
    assert frame + [] == frame;
    PrefixStalled(frame, BuiltHeader(first, key, p), k);
    DecodeStalled(frame[..k]);
  }

  /** A proper prefix of exactly one frame does not start with a complete frame. */
  lemma PrefixStalled(frame: seq<byte>, h: Header, k: nat)
    requires ParseHeader(frame) == Some(h) && h.FrameLength() == |frame| && k < |frame|
    ensures Stalled(frame[..k])
  {
    var pre := frame[..k];
    if ParseHeader(pre).Some? {
      ParseHeaderExtend(pre, frame[k..]);
      assert pre + frame[k..] == frame;
    }
  }

  /**
    Decoding a longer buffer extends decoding a shorter one: a close frame
    already complete keeps everything as it was; otherwise the new bytes are
    decoded after the kept remainder. This is what makes the data handler's
    append-decode-keep loop correct.
   */
  lemma {:induction false} DecodeAppend(buf: seq<byte>, more: seq<byte>)
    ensures var r := DecodeFrames(buf);
      DecodeFrames(buf + more) ==
        if r.closed then r else After(r.messages, DecodeFrames(r.remaining + more))
    decreases |buf|
  {
    if Stalled(buf) {
      DecodeStalled(buf);
      AfterNothing(DecodeFrames(buf + more));
    } else {
      var h := ParseHeader(buf).value;
      if h.opcode == CloseOpcode {
        DecodeClose(buf, h);
        ParseHeaderExtend(buf, more);
        DecodeClose(buf + more, h);
      } else {
        DecodeAppend(buf[h.FrameLength()..], more);
        DecodeAppendStep(buf, more, h);
      }
    }
  }

  /** The inductive step of `DecodeAppend`: a complete, non-close first frame. */
  lemma DecodeAppendStep(buf: seq<byte>, more: seq<byte>, h: Header)
    requires ParseHeader(buf) == Some(h) && h.FrameLength() <= |buf| && h.opcode != CloseOpcode
    requires var s := DecodeFrames(buf[h.FrameLength()..]);
      DecodeFrames(buf[h.FrameLength()..] + more) ==
        if s.closed then s else After(s.messages, DecodeFrames(s.remaining + more))
    ensures var r := DecodeFrames(buf);
      DecodeFrames(buf + more) ==
        if r.closed then r else After(r.messages, DecodeFrames(r.remaining + more))
  {
    var f := h.FrameLength();
    var payload := FramePayload(buf, h);
    DecodeFirstFrame(buf, h);
    DecodeExtendedFirst(buf, more, h);
    var s := DecodeFrames(buf[f..]);
    if !s.closed {
      AfterAfter([payload], s.messages, DecodeFrames(s.remaining + more));
    }
  }

  /** A complete, non-close first frame is decoded the same when more bytes follow it. */
  lemma DecodeExtendedFirst(buf: seq<byte>, more: seq<byte>, h: Header)
    requires ParseHeader(buf) == Some(h) && h.FrameLength() <= |buf| && h.opcode != CloseOpcode
    ensures DecodeFrames(buf + more) == After([FramePayload(buf, h)], DecodeFrames(buf[h.FrameLength()..] + more))
  {
    var ext := buf + more;
    var f := h.FrameLength();
    ParseHeaderExtend(buf, more);
    assert ext[..f] == buf[..f];
    SamePayload(ext, buf, h);
    assert ext[f..] == buf[f..] + more;
    DecodeFirstFrame(ext, h);
  }

  /**
    Consumed frames followed by the remainder make up the input: the consumed
    prefix decodes to exactly the same messages with nothing left over.
   */
  lemma {:induction false} ConsumedPrefix(buf: seq<byte>)
    ensures var r := DecodeFrames(buf);
      !r.closed ==>
        && |r.remaining| <= |buf|
        && buf == buf[..|buf| - |r.remaining|] + r.remaining
        && DecodeFrames(buf[..|buf| - |r.remaining|]) == Decoded(r.messages, [], false)
    decreases |buf|
  {
    var r := DecodeFrames(buf);
    DecodeFramesShape(buf);
    if !r.closed {
      var k := |buf| - |r.remaining|;
      if Stalled(buf) {
        DecodeStalled(buf);
        assert buf[..k] == [];
        DecodeStalled([]);
      } else {
        var h := ParseHeader(buf).value;
        var rest := buf[h.FrameLength()..];
        var s := DecodeFrames(rest);
        DecodeFirstFrame(buf, h);
        ConsumedPrefix(rest);
        ConsumedPrefixStep(buf, h, |rest| - |s.remaining|, s.messages);
        assert k == h.FrameLength() + (|rest| - |s.remaining|);
      }
    }
  }

  /** The inductive step of `ConsumedPrefix`: a complete, non-close first frame before the consumed part of the rest. */
  lemma ConsumedPrefixStep(buf: seq<byte>, h: Header, consumed: nat, messages: seq<seq<byte>>)
    requires ParseHeader(buf) == Some(h) && h.FrameLength() + consumed <= |buf| && h.opcode != CloseOpcode
    requires DecodeFrames(buf[h.FrameLength()..][..consumed]) == Decoded(messages, [], false)
    ensures DecodeFrames(buf[..h.FrameLength() + consumed]) == Decoded([FramePayload(buf, h)] + messages, [], false)
  {
    DecodeFirstOfPrefix(buf, h, consumed);
  }

  /** Decoding a prefix that holds the whole first frame starts with that frame's payload. */
  lemma DecodeFirstOfPrefix(buf: seq<byte>, h: Header, consumed: nat)
    requires ParseHeader(buf) == Some(h) && h.FrameLength() + consumed <= |buf| && h.opcode != CloseOpcode
    ensures DecodeFrames(buf[..h.FrameLength() + consumed])
      == After([FramePayload(buf, h)], DecodeFrames(buf[h.FrameLength()..][..consumed]))
  {
    var f := h.FrameLength();
    var pre := buf[..f + consumed];
    ParseHeaderPrefix(buf, f + consumed);
    assert pre[..f] == buf[..f];
    SamePayload(pre, buf, h);
    assert pre[f..] == buf[f..][..consumed];
    DecodeFirstFrame(pre, h);
  }

}

=== FILE: orders.dfy ===
/**
  The order store (`orders`, `nextOrderId`) and `handleMessage` of server.js.
  A parsed JSON document is classified into a closed `Request` type; the
  dispatcher returns the new store and what has to be sent, instead of
  writing to sockets.
 */
module Orders {
  import opened Wrappers

  /** A JSON value as `JSON.parse` produces it (numbers as reals). */
  datatype Json =
    | JNull
    | JBool(b: bool)
    | JNumber(n: real)
    | JString(s: string)
    | JArray(elements: seq<Json>)
    | JObject(members: seq<(string, Json)>)

  /** JavaScript truthiness of an optional field (None is `undefined`). */
  predicate Truthy(v: Option<Json>)
  {
    match v
    case None => false
    case Some(JNull) => false
    case Some(JBool(b)) => b
    case Some(JNumber(n)) => n != 0.0
    case Some(JString(s)) => s != ""
    case Some(JArray(_)) => true
    case Some(JObject(_)) => true
  }

  const NoTable: Json := JString("Sin mesa")
  const Pending: Json := JString("pending")
  /** The literal in server.js holds the two characters U+00C3 U+00A1 (a UTF-8 "á" read as Latin-1); kept as written. */
  const InvalidMessageText: string := "Mensaje inv\U{C3}\U{A1}lido."
  const UnknownTypeText: string := "Tipo no reconocido."

  /** One order; exactly the fields `normalizeOrder` projects. */
  datatype Order = Order(id: nat, table: Json, items: seq<Json>, status: Json, createdAt: string)

  /** The `orders` array and the `nextOrderId` counter. */
  datatype Store = Store(orders: seq<Order>, nextId: nat)

  /** The state when the server starts: no orders, first id 1. */
  function InitialStore(): Store
  {
    Store([], 1)
  }

  /** Ids increase along the list and all lie below the next id to hand out. */
  ghost predicate Valid(s: Store)
  {
    && (forall i, j :: 0 <= i < j < |s.orders| ==> s.orders[i].id < s.orders[j].id)
    && (forall i :: 0 <= i < |s.orders| ==> s.orders[i].id < s.nextId)
  }

  /**
    What `handleMessage` distinguishes in a payload. `NullDocument` is the
    text `null`, which parses but has no `type` property to read.
   */
  datatype Request =
    | GetState
    | NewOrder(table: Option<Json>, items: Option<Json>)
    | UpdateStatus(id: Option<Json>, status: Option<Json>)
    | UnknownType
    | NullDocument
    | ParseError

  /** The messages the server sends. */
  datatype OutMsg = StateMsg(orders: seq<Order>) | ErrorMsg(message: string)

  /** Whether a message goes back to the sender only or to every registered connection. */
  datatype Outcome = Reply(msg: OutMsg) | Broadcast(msg: OutMsg)

  /** `normalizeOrder`: copies the five public fields. */
  function Normalize(o: Order): Order
  {
    Order(o.id, o.table, o.items, o.status, o.createdAt)
  }

  /** `orders.map(normalizeOrder)`: the state message lists every order, in order, unchanged. */
  function Snapshot(s: Store): (r: seq<Order>)
    ensures r == s.orders
  {
    seq(|s.orders|, i requires 0 <= i < |s.orders| => Normalize(s.orders[i]))
  }

  /**
    The `new_order` branch: the new order takes the next id, a falsy table
    becomes 'Sin mesa', anything but an array of items becomes no items; it
    is appended with status 'pending' and the counter moves on by one.
   */
  function CreateOrder(s: Store, table: Option<Json>, items: Option<Json>, now: string): (r: Store)
    ensures r.nextId == s.nextId + 1
    ensures |r.orders| == |s.orders| + 1 && r.orders[..|s.orders|] == s.orders
    ensures r.orders[|s.orders|].id == s.nextId
    ensures r.orders[|s.orders|].status == Pending && r.orders[|s.orders|].createdAt == now
    ensures r.orders[|s.orders|].table == (if Truthy(table) then table.value else NoTable)
    ensures items.Some? && items.value.JArray? ==> r.orders[|s.orders|].items == items.value.elements
    ensures !(items.Some? && items.value.JArray?) ==> r.orders[|s.orders|].items == []
  {
    var coerced := match items
      case Some(JArray(xs)) => xs
      case _ => [];
    var order := Order(s.nextId, if Truthy(table) then table.value else NoTable, coerced, Pending, now);
    Store(s.orders + [order], s.nextId + 1)
  }

  /** `order.id === parsed.id`: only a JSON number equal to the id matches. */
  predicate IdMatches(orderId: nat, id: Option<Json>)
  {
    id.Some? && id.value.JNumber? && id.value.n == orderId as real
  }

  /** `{ ...order, status: parsed.status || order.status }` for a matching order. */
  function Restatus(o: Order, id: Option<Json>, status: Option<Json>): Order
  {
    if IdMatches(o.id, id) then o.(status := if Truthy(status) then status.value else o.status) else o
  }

  /**
    The `update_status` branch: the list keeps its length, its order and every
    field except the status; only an order whose id matches changes, and only
    to a truthy status.
   */
  function SetStatus(s: Store, id: Option<Json>, status: Option<Json>): (r: Store)
    ensures r.nextId == s.nextId && |r.orders| == |s.orders|
    ensures forall i :: 0 <= i < |s.orders| ==>
      var o, o' := s.orders[i], r.orders[i];
      && o'.id == o.id && o'.table == o.table && o'.items == o.items && o'.createdAt == o.createdAt
      && (o'.status != o.status ==> IdMatches(o.id, id) && Truthy(status) && o'.status == status.value)
      && (IdMatches(o.id, id) && Truthy(status) ==> o'.status == status.value)
  {
    Store(seq(|s.orders|, i requires 0 <= i < |s.orders| => Restatus(s.orders[i], id, status)), s.nextId)
  }

  /**
    `handleMessage` on a classified payload at time `now`. `get_state` and
    every kind of bad input leave the store alone and answer the sender only;
    `new_order` and `update_status` broadcast the state after the change.
   */
  function Dispatch(s: Store, req: Request, now: string): (r: (Store, Outcome))
    ensures req.GetState? ==> r == (s, Reply(StateMsg(s.orders)))
    ensures req.ParseError? ==> r == (s, Reply(ErrorMsg(InvalidMessageText)))
    ensures req.UnknownType? || req.NullDocument? ==> r == (s, Reply(ErrorMsg(UnknownTypeText)))
    ensures req.NewOrder? || req.UpdateStatus? ==> r.1 == Broadcast(StateMsg(r.0.orders))
    ensures req.NewOrder? ==> r.0 == CreateOrder(s, req.table, req.items, now)
    ensures req.UpdateStatus? ==> r.0 == SetStatus(s, req.id, req.status)
  {
    match req
    case ParseError => (s, Reply(ErrorMsg(InvalidMessageText)))
    case GetState => (s, Reply(StateMsg(Snapshot(s))))
    case NewOrder(table, items) =>
      var s' := CreateOrder(s, table, items, now);
      (s', Broadcast(StateMsg(Snapshot(s'))))
    case UpdateStatus(id, status) =>
      var s' := SetStatus(s, id, status);
      (s', Broadcast(StateMsg(Snapshot(s'))))
    case UnknownType => (s, Reply(ErrorMsg(UnknownTypeText)))
    case NullDocument => (s, Reply(ErrorMsg(UnknownTypeText)))
  }

  /**
    `handleMessage` as written, branch by branch: `parsed.type` is read from
    whatever `JSON.parse` returned, so the document `null` throws a TypeError
    out of the data listener (None here) instead of being answered.
   */
  function DispatchAsWritten(s: Store, req: Request, now: string): (r: Option<(Store, Outcome)>)
    ensures r.None? <==> req.NullDocument?
    ensures r.Some? && !req.NewOrder? && !req.UpdateStatus? ==> r.value.0 == s && r.value.1.Reply?
    ensures r.Some? && (req.NewOrder? || req.UpdateStatus?) ==> r.value.1 == Broadcast(StateMsg(r.value.0.orders))
  {
    match req
    case ParseError => Some((s, Reply(ErrorMsg(InvalidMessageText))))
    case NullDocument => None
    case GetState => Some((s, Reply(StateMsg(Snapshot(s)))))
    case NewOrder(table, items) =>
      var s' := CreateOrder(s, table, items, now);
      Some((s', Broadcast(StateMsg(Snapshot(s')))))
    case UpdateStatus(id, status) =>
      var s' := SetStatus(s, id, status);
      Some((s', Broadcast(StateMsg(Snapshot(s')))))
    case UnknownType => Some((s, Reply(ErrorMsg(UnknownTypeText))))
  }

  /** The handler as written and the corrected dispatcher agree on every request except the document `null`. */
  lemma DispatchAgreesExceptNull(s: Store, req: Request, now: string)
    ensures !req.NullDocument? <==> DispatchAsWritten(s, req, now) == Some(Dispatch(s, req, now))
  {
  }

  /** The document `null` crashes the source's handler, while the corrected dispatcher answers it with an error. */
  lemma NullDocumentCrashes(s: Store, now: string)
    ensures DispatchAsWritten(s, NullDocument, now).None?
    ensures Dispatch(s, NullDocument, now) == (s, Reply(ErrorMsg(UnknownTypeText)))
  {
  }

  /** The empty store at start-up is valid. */
  lemma InitialStoreValid()
    ensures Valid(InitialStore())
  {
  }

  /** Every message keeps ids increasing, unique and below the counter. */
  lemma DispatchPreservesValid(s: Store, req: Request, now: string)
    requires Valid(s)
    ensures Valid(Dispatch(s, req, now).0)
    ensures Dispatch(s, req, now).0.nextId >= s.nextId
  {
    match req
    case NewOrder(table, items) =>
      var s' := CreateOrder(s, table, items, now);
      assert forall i :: 0 <= i < |s.orders| ==> s'.orders[i] == s.orders[i];
    case UpdateStatus(id, status) =>
    case _ =>
  }

  /** An `update_status` whose id matches no order changes nothing (and still broadcasts). */
  lemma UnknownIdIsNoOp(s: Store, id: Option<Json>, status: Option<Json>, now: string)
    requires forall i :: 0 <= i < |s.orders| ==> !IdMatches(s.orders[i].id, id)
    ensures Dispatch(s, UpdateStatus(id, status), now) == (s, Broadcast(StateMsg(s.orders)))
  {
    var r := SetStatus(s, id, status);
    assert r.orders == s.orders;
  }

  /** Setting the same status twice is the same as setting it once. */
  lemma SetStatusIdempotent(s: Store, id: Option<Json>, status: Option<Json>)
    ensures SetStatus(SetStatus(s, id, status), id, status) == SetStatus(s, id, status)
  {
    var once := SetStatus(s, id, status);
    var twice := SetStatus(once, id, status);
    assert twice.orders == once.orders;
  }

  /** Applies `new_order` once per (table, items) pair, all at time `now`. */
  function CreateMany(s: Store, requests: seq<(Option<Json>, Option<Json>)>, now: string): Store
    decreases |requests|
  {
    if |requests| == 0 then s
    else CreateMany(CreateOrder(s, requests[0].0, requests[0].1, now), requests[1..], now)
  }

  /**
    N creations on a valid store append N orders carrying the ids
    nextId, nextId + 1, ..., in creation order; the store stays valid, so the
    ids are strictly increasing and distinct.
   */
  lemma {:induction false} CreateManyIds(s: Store, requests: seq<(Option<Json>, Option<Json>)>, now: string)
    requires Valid(s)
    ensures var r := CreateMany(s, requests, now);
      && Valid(r)
      && r.nextId == s.nextId + |requests|
      && |r.orders| == |s.orders| + |requests|
      && r.orders[..|s.orders|] == s.orders
      && (forall k :: |s.orders| <= k < |r.orders| ==> r.orders[k].id == s.nextId + (k - |s.orders|))
    decreases |requests|
  {
    if |requests| > 0 {
      var s1 := CreateOrder(s, requests[0].0, requests[0].1, now);
      DispatchPreservesValid(s, NewOrder(requests[0].0, requests[0].1), now);
      CreateManyIds(s1, requests[1..], now);
      var r := CreateMany(s1, requests[1..], now);
      assert r.orders[..|s.orders|] == r.orders[..|s1.orders|][..|s.orders|];
      forall k | |s.orders| <= k < |r.orders|
        ensures r.orders[k].id == s.nextId + (k - |s.orders|)
      {
        if k == |s.orders| {
          assert r.orders[k] == r.orders[..|s1.orders|][k] == s1.orders[k];
        }
      }
    }
  }
}

=== FILE: server.dfy ===
/**
  The connection side of server.js: the upgrade handshake, the `clients`
  registry with its broadcast fan-out, and the socket events (upgrade, data,
  close, error) as pure transitions that return the actions to perform.
 */
module Server {
  import opened Wrappers
  import opened Bytes
  import opened FrameCodec
  import opened Session
  import opened Orders

  /** A connection's identity (a socket object in the source). */
  type ConnId = nat

  /** What the server does to sockets. */
  datatype Action =
    | WriteText(conn: ConnId, text: string)
    | Send(conn: ConnId, frame: seq<byte>)
    | End(conn: ConnId)
    | Destroy(conn: ConnId)

  const UpgradePath: string := "/ws"
  const AcceptMagic: string := "258EAFA5-E914-47DA-95CA-C5AB0DC85B11"
  const StatusLine: string := "HTTP/1.1 101 Switching Protocols"
  const Crlf: string := "\r\n"

  /** The four lines of the 101 response, the last carrying the accept digest. */
  function HandshakeLines(accept: string): seq<string>
  {
    [StatusLine, "Upgrade: websocket", "Connection: Upgrade", "Sec-WebSocket-Accept: " + accept]
  }

  /** `lines.join('\r\n')`. */
  function JoinLines(lines: seq<string>): string
    decreases |lines|
  {
    if |lines| == 0 then ""
    else if |lines| == 1 then lines[0]
    else lines[0] + Crlf + JoinLines(lines[1..])
  }

  /** Reads text back as the lines between its CRLFs, as a client parses the response head. */
  function SplitLines(s: string): (r: seq<string>)
    ensures |r| >= 1
    decreases |s|
  {
    if |s| == 0 then [""]
    else if |s| >= 2 && s[0] == '\r' && s[1] == '\n' then [""] + SplitLines(s[2..])
    else
      var rest := SplitLines(s[1..]);
      [[s[0]] + rest[0]] + rest[1..]
  }

  /** A header line holds no carriage return (base64 and the fixed lines never do). */
  predicate NoCr(line: string)
  {
    '\r' !in line
  }

  /** One line without a carriage return, then CRLF, splits off as the first line. */
  lemma {:induction false} SplitLine(line: string, rest: string)
    requires NoCr(line)
    ensures SplitLines(line + Crlf + rest) == [line] + SplitLines(rest)
    decreases |line|
  {
    var s := line + Crlf + rest;
    if |line| == 0 {
      assert s == Crlf + rest && s[2..] == rest;
    } else {
      assert s[0] == line[0];
      assert s[1..] == line[1..] + Crlf + rest;
      SplitLine(line[1..], rest);
      assert [line[0]] + line[1..] == line;
    }
  }

  /** Splitting joined lines followed by CRLF and more text gives back the lines, then the split of the rest. */
  lemma {:induction false} SplitJoin(lines: seq<string>, rest: string)
    requires |lines| >= 1 && forall i :: 0 <= i < |lines| ==> NoCr(lines[i])
    ensures SplitLines(JoinLines(lines) + Crlf + rest) == lines + SplitLines(rest)
    decreases |lines|
  {
    if |lines| == 1 {
      assert JoinLines(lines) == lines[0] && [lines[0]] == lines;
      SplitLine(lines[0], rest);
    } else {
      SplitJoin(lines[1..], rest);
      SplitJoinCons(lines[0], lines[1..], rest);
      assert [lines[0]] + lines[1..] == lines;
    }
  }

  /** The inductive step of `SplitJoin`: one more line in front. */
  lemma SplitJoinCons(line: string, lines: seq<string>, rest: string)
    requires NoCr(line) && |lines| >= 1
    requires SplitLines(JoinLines(lines) + Crlf + rest) == lines + SplitLines(rest)
    ensures SplitLines(JoinLines([line] + lines) + Crlf + rest) == [line] + lines + SplitLines(rest)
  {
    var tail := JoinLines(lines) + Crlf + rest;
    assert ([line] + lines)[1..] == lines;
    assert JoinLines([line] + lines) + Crlf + rest == line + Crlf + tail;
    SplitLine(line, tail);
  }

  /** The response head read back: the four lines, then the empty line that ends the head. */
  lemma HandshakeResponse(accept: string)
    ensures var response := JoinLines(HandshakeLines(accept)) + Crlf + Crlf;
      && |response| > |StatusLine + Crlf| && response[..|StatusLine + Crlf|] == StatusLine + Crlf
      && (NoCr(accept) ==> SplitLines(response) == HandshakeLines(accept) + ["", ""])
  {
    var lines := HandshakeLines(accept);
    var response := JoinLines(lines) + Crlf + Crlf;
    var tail := JoinLines(lines[1..]) + Crlf + Crlf;
    assert response == StatusLine + Crlf + tail;
    assert (StatusLine + Crlf + tail)[..|StatusLine + Crlf|] == StatusLine + Crlf;
    if NoCr(accept) {
      FixedLinesNoCr(accept);
      SplitJoin(lines, Crlf);
      assert SplitLines(Crlf) == [""] + SplitLines(Crlf[2..]);
      assert Crlf[2..] == "";
    }
  }

  /** With an accept value free of carriage returns, none of the four header lines holds one. */
  lemma FixedLinesNoCr(accept: string)
    requires NoCr(accept)
    ensures forall i :: 0 <= i < |HandshakeLines(accept)| ==> NoCr(HandshakeLines(accept)[i])
  {
    var last := "Sec-WebSocket-Accept: " + accept;
    forall c | c in last
      ensures c != '\r'
    {
      var k :| 0 <= k < |last| && last[k] == c;
      if k >= 22 {
        assert last[k] == accept[k - 22];
      }
    }
  }

  /**
    The upgrade decision: only "/ws" with a non-empty `Sec-WebSocket-Key` is
    accepted. The reply is the status line and three headers joined by CRLF,
    then a blank line; read back line by line it gives exactly those four
    lines and the empty line that ends the head. `digest` stands for SHA-1
    then base64.
   */
  function AcceptUpgrade(url: string, key: Option<string>, digest: string -> string): (r: Option<string>)
    ensures r.Some? <==> url == UpgradePath && key.Some? && key.value != ""
    ensures r.Some? ==> |r.value| > |StatusLine + Crlf| && r.value[..|StatusLine + Crlf|] == StatusLine + Crlf
    ensures r.Some? ==> NoCr(digest(key.value + AcceptMagic)) ==>
      SplitLines(r.value) == HandshakeLines(digest(key.value + AcceptMagic)) + ["", ""]
  {
    if url != UpgradePath then None
    else if key.None? || key.value == "" then None
    else
      var accept := digest(key.value + AcceptMagic);
      var response := JoinLines(HandshakeLines(accept)) + Crlf + Crlf;
      HandshakeResponse(accept);
      Some(response)
  }

  /** The `clients` Set holds each connection at most once. */
  predicate NoDuplicates(clients: seq<ConnId>)
  {
    forall i, j :: 0 <= i < j < |clients| ==> clients[i] != clients[j]
  }

  lemma NoDuplicatesTail(clients: seq<ConnId>)
    requires |clients| > 0
    ensures NoDuplicates(clients) ==> NoDuplicates(clients[1..]) && clients[0] !in clients[1..]
  {
  }

  lemma NoDuplicatesCons(c: ConnId, clients: seq<ConnId>)
    requires c !in clients && NoDuplicates(clients)
    ensures NoDuplicates([c] + clients)
  {
    var r := [c] + clients;
    forall i, j | 0 <= i < j < |r|
      ensures r[i] != r[j]
    {
      assert r[j] == clients[j - 1];
      if i > 0 {
        assert r[i] == clients[i - 1];
      }
    }
  }

  /** `clients.add(socket)`. */
  function Register(clients: seq<ConnId>, c: ConnId): (r: seq<ConnId>)
    ensures forall x :: x in r <==> x in clients || x == c
    ensures NoDuplicates(clients) ==> NoDuplicates(r)
  {
    if c in clients then clients else clients + [c]
  }

  /** `clients.delete(socket)`: removes the connection, keeps the others in order. */
  function Unregister(clients: seq<ConnId>, c: ConnId): (r: seq<ConnId>)
    ensures forall x :: x in r <==> x in clients && x != c
    ensures NoDuplicates(clients) ==> NoDuplicates(r)
    ensures |r| <= |clients|
    decreases |clients|
  {
    if |clients| == 0 then []
    else if clients[0] == c then
      NoDuplicatesTail(clients);
      Unregister(clients[1..], c)
    else
      var rest := Unregister(clients[1..], c);
      assert NoDuplicates(clients) ==> NoDuplicates([clients[0]] + rest) by {
        if NoDuplicates(clients) {
          NoDuplicatesTail(clients);
          NoDuplicatesCons(clients[0], rest);
        }
      }
      [clients[0]] + rest
  }

  /** Removing twice is removing once (close and error may both fire). */
  lemma {:induction false} UnregisterIdempotent(clients: seq<ConnId>, c: ConnId)
    ensures Unregister(Unregister(clients, c), c) == Unregister(clients, c)
    decreases |clients|
  {
    if |clients| > 0 {
      UnregisterIdempotent(clients[1..], c);
      if clients[0] != c {
        var rest := Unregister(clients[1..], c);
        assert ([clients[0]] + rest)[1..] == rest;
      }
    }
  }

  /** How many frames the actions send to `c`. */
  function SendsTo(actions: seq<Action>, c: ConnId): nat
    decreases |actions|
  {
    if |actions| == 0 then 0
    else (if actions[0].Send? && actions[0].conn == c then 1 else 0) + SendsTo(actions[1..], c)
  }

  lemma {:induction false} SendsToAppend(a: seq<Action>, b: seq<Action>, c: ConnId)
    ensures SendsTo(a + b, c) == SendsTo(a, c) + SendsTo(b, c)
    decreases |a|
  {
    if |a| > 0 {
      assert (a + b)[1..] == a[1..] + b;
      SendsToAppend(a[1..], b, c);
    } else {
      assert a + b == b;
    }
  }

  /** `broadcast`: the same frame written to every registered connection, in the registry's iteration order. */
  function Fanout(clients: seq<ConnId>, frame: seq<byte>): (r: seq<Action>)
    ensures |r| == |clients|
    ensures forall i :: 0 <= i < |r| ==> r[i] == Send(clients[i], frame)
    decreases |clients|
  {
    if |clients| == 0 then [] else [Send(clients[0], frame)] + Fanout(clients[1..], frame)
  }

  /** A broadcast writes exactly once to each registered connection and to nobody else. */
  lemma {:induction false} FanoutReachesEachOnce(clients: seq<ConnId>, frame: seq<byte>, c: ConnId)
    requires NoDuplicates(clients)
    ensures SendsTo(Fanout(clients, frame), c) == if c in clients then 1 else 0
    decreases |clients|
  {
    if |clients| > 0 {
      var r := Fanout(clients, frame);
      assert r[1..] == Fanout(clients[1..], frame);
      NoDuplicatesTail(clients);
      FanoutReachesEachOnce(clients[1..], frame, c);
      assert forall x :: x in clients <==> x == clients[0] || x in clients[1..];
    }
  }

  /** The frames one dispatch outcome produces: a reply for the sender, or a broadcast. */
  function Deliver(clients: seq<ConnId>, sender: ConnId, outcome: Outcome, stringify: OutMsg -> Payload): (r: seq<Action>)
    ensures forall a :: a in r ==> a.Send? && a.frame == Encode(stringify(outcome.msg))
    ensures outcome.Reply? ==> forall c :: SendsTo(r, c) == if c == sender then 1 else 0
    ensures outcome.Broadcast? && NoDuplicates(clients) ==> forall c :: SendsTo(r, c) == if c in clients then 1 else 0
  {
    match outcome
    case Reply(m) =>
      var r := [Send(sender, Encode(stringify(m)))];
      assert r[1..] == [];
      r
    case Broadcast(m) =>
      var frame := Encode(stringify(m));
      assert NoDuplicates(clients) ==> forall c :: SendsTo(Fanout(clients, frame), c) == if c in clients then 1 else 0 by {
        if NoDuplicates(clients) {
          forall c
            ensures SendsTo(Fanout(clients, frame), c) == if c in clients then 1 else 0
          {
            FanoutReachesEachOnce(clients, frame, c);
          }
        }
      }
      Fanout(clients, frame)
  }

  /**
    `get_state`, an unknown type, the document `null` and unparsable text
    are answered with exactly one frame, to the sender; nobody else hears of it.
   */
  lemma RepliesOnlyToSender(clients: seq<ConnId>, sender: ConnId, s: Store, req: Request, now: string,
                            stringify: OutMsg -> Payload, c: ConnId)
    requires req.GetState? || req.UnknownType? || req.NullDocument? || req.ParseError?
    ensures var acts := Deliver(clients, sender, Dispatch(s, req, now).1, stringify);
      && |acts| == 1 && acts[0].Send? && acts[0].conn == sender
      && (c != sender ==> SendsTo(acts, c) == 0)
  {
    var acts := Deliver(clients, sender, Dispatch(s, req, now).1, stringify);
    assert acts[1..] == [];
  }

  /** The whole server: the store, the registry and each upgraded connection's kept buffer. */
  datatype ServerState = ServerState(store: Store, clients: seq<ConnId>, buffers: map<ConnId, seq<byte>>)

  function InitialServer(): ServerState
  {
    ServerState(InitialStore(), [], map[])
  }

  ghost predicate ServerValid(st: ServerState)
  {
    && Valid(st.store)
    && NoDuplicates(st.clients)
    && (forall c :: c in st.buffers ==> Stalled(st.buffers[c]))
  }

  lemma InitialServerValid()
    ensures ServerValid(InitialServer())
  {
  }

  /**
    The `upgrade` event: a refused request destroys the socket and changes
    nothing; an accepted one writes the handshake, registers the connection
    with an empty buffer and sends it the current state.
   */
  function OnUpgrade(st: ServerState, conn: ConnId, url: string, key: Option<string>,
                     digest: string -> string, stringify: OutMsg -> Payload): (r: (ServerState, seq<Action>))
    ensures AcceptUpgrade(url, key, digest).None? ==> r == (st, [Destroy(conn)])
    ensures AcceptUpgrade(url, key, digest).Some? ==>
      && (forall x :: x in r.0.clients <==> x in st.clients || x == conn)
      && r.0.buffers == st.buffers[conn := []]
      && r.0.store == st.store
      && r.1 == [WriteText(conn, AcceptUpgrade(url, key, digest).value),
                 Send(conn, Encode(stringify(StateMsg(st.store.orders))))]
  {
    match AcceptUpgrade(url, key, digest)
    case None => (st, [Destroy(conn)])
    case Some(response) =>
      var st' := ServerState(st.store, Register(st.clients, conn), st.buffers[conn := []]);
      (st', [WriteText(conn, response), Send(conn, Encode(stringify(StateMsg(Snapshot(st.store)))))])
  }

  /**
    `handleMessage` for each decoded payload in turn, collecting what is sent.
    No message changes nothing; one message is dispatched and its outcome
    delivered; longer runs split at any point (`HandleAllAppend`). Handling
    only ever sends frames, and a registered sender hears exactly one frame
    per message: its reply or the broadcast.
   */
  function HandleAll(store: Store, clients: seq<ConnId>, sender: ConnId, messages: seq<seq<byte>>,
                     parse: seq<byte> -> Request, stringify: OutMsg -> Payload, now: string): (r: (Store, seq<Action>))
    ensures |messages| == 0 ==> r == (store, [])
    ensures |messages| == 1 ==> var (s1, outcome) := Dispatch(store, parse(messages[0]), now);
      r == (s1, Deliver(clients, sender, outcome, stringify))
    ensures forall a :: a in r.1 ==> a.Send?
    ensures sender in clients && NoDuplicates(clients) ==> SendsTo(r.1, sender) == |messages|
    decreases |messages|
  {
    if |messages| == 0 then (store, [])
    else
      var (s1, outcome) := Dispatch(store, parse(messages[0]), now);
      var (s2, rest) := HandleAll(s1, clients, sender, messages[1..], parse, stringify, now);
      var delivered := Deliver(clients, sender, outcome, stringify);
      SendsToAppend(delivered, rest, sender);
      assert delivered + [] == delivered;
      (s2, delivered + rest)
  }

  /** Handling a non-empty run is handling its first message, then the rest on the resulting store. */
  lemma HandleAllCons(store: Store, clients: seq<ConnId>, sender: ConnId, m: seq<seq<byte>>,
                      parse: seq<byte> -> Request, stringify: OutMsg -> Payload, now: string)
    requires |m| > 0
    ensures var (s1, outcome) := Dispatch(store, parse(m[0]), now);
      var rest := HandleAll(s1, clients, sender, m[1..], parse, stringify, now);
      HandleAll(store, clients, sender, m, parse, stringify, now) == (rest.0, Deliver(clients, sender, outcome, stringify) + rest.1)
  {
  }

  /** Handling two runs of messages one after the other is handling their concatenation. */
  lemma {:induction false} HandleAllAppend(store: Store, clients: seq<ConnId>, sender: ConnId, m1: seq<seq<byte>>, m2: seq<seq<byte>>,
                                           parse: seq<byte> -> Request, stringify: OutMsg -> Payload, now: string)
    ensures var first := HandleAll(store, clients, sender, m1, parse, stringify, now);
      var second := HandleAll(first.0, clients, sender, m2, parse, stringify, now);
      HandleAll(store, clients, sender, m1 + m2, parse, stringify, now) == (second.0, first.1 + second.1)
    decreases |m1|
  {
    if |m1| == 0 {
      assert m1 + m2 == m2;
      var second := HandleAll(store, clients, sender, m2, parse, stringify, now);
      assert [] + second.1 == second.1;
    } else {
      var s1 := Dispatch(store, parse(m1[0]), now).0;
      var d := Deliver(clients, sender, Dispatch(store, parse(m1[0]), now).1, stringify);
      var a := HandleAll(s1, clients, sender, m1[1..], parse, stringify, now);
      var b := HandleAll(a.0, clients, sender, m2, parse, stringify, now);
      HandleAllCons(store, clients, sender, m1, parse, stringify, now);
      HandleAllCons(store, clients, sender, m1 + m2, parse, stringify, now);
      ConsOfAppend(m1, m2);
      HandleAllAppend(s1, clients, sender, m1[1..], m2, parse, stringify, now);
      AppendAssoc(d, a.1, b.1);
    }
  }

  /** The head and tail of a concatenation whose left part is non-empty. */
  lemma ConsOfAppend<T>(m1: seq<T>, m2: seq<T>)
    requires |m1| > 0
    ensures (m1 + m2)[0] == m1[0] && (m1 + m2)[1..] == m1[1..] + m2
  {
  }

  /** Concatenation is associative. */
  lemma AppendAssoc<T>(x: seq<T>, y: seq<T>, z: seq<T>)
    ensures x + (y + z) == (x + y) + z
  {
  }

  /**
    The `data` event: append, decode, keep the remainder, handle every
    message, and end the socket if a close frame was decoded.
   */
  function OnData(st: ServerState, conn: ConnId, chunk: seq<byte>,
                  parse: seq<byte> -> Request, stringify: OutMsg -> Payload, now: string): (r: (ServerState, seq<Action>))
    requires conn in st.buffers
    ensures r.0.clients == st.clients
    ensures conn in r.0.buffers && r.0.buffers[conn] == Feed(st.buffers[conn], chunk).buffer
    ensures conn in r.0.buffers && Stalled(r.0.buffers[conn])
    ensures var handled := HandleAll(st.store, st.clients, conn, Feed(st.buffers[conn], chunk).messages, parse, stringify, now);
      r.0.store == handled.0 && |handled.1| <= |r.1| && r.1[..|handled.1|] == handled.1
    ensures |r.1| == |HandleAll(st.store, st.clients, conn, Feed(st.buffers[conn], chunk).messages, parse, stringify, now).1|
                     + (if Feed(st.buffers[conn], chunk).closed then 1 else 0)
    ensures conn in st.clients && NoDuplicates(st.clients) ==> SendsTo(r.1, conn) == |Feed(st.buffers[conn], chunk).messages|
    ensures forall c :: c in st.buffers && c != conn ==> c in r.0.buffers && r.0.buffers[c] == st.buffers[c]
    ensures r.0.buffers.Keys == st.buffers.Keys
    ensures forall a :: a in r.1 ==> a.Send? || a == End(conn)
    ensures End(conn) in r.1 <==> Feed(st.buffers[conn], chunk).closed
    ensures End(conn) in r.1 ==> r.1[|r.1| - 1] == End(conn)
  {
    var step := Feed(st.buffers[conn], chunk);
    var (store', actions) := HandleAll(st.store, st.clients, conn, step.messages, parse, stringify, now);
    var tail := if step.closed then [End(conn)] else [];
    SendsToAppend(actions, tail, conn);
    (ServerState(store', st.clients, st.buffers[conn := step.buffer]), actions + tail)
  }

  /** The `close` and `error` events: the connection leaves the registry. */
  function OnDisconnect(st: ServerState, conn: ConnId): (r: ServerState)
    ensures conn !in r.clients
    ensures forall x :: x in r.clients <==> x in st.clients && x != conn
    ensures r.store == st.store && r.buffers == st.buffers
  {
    st.(clients := Unregister(st.clients, conn))
  }

  lemma {:induction false} HandleAllPreservesValid(store: Store, clients: seq<ConnId>, sender: ConnId, messages: seq<seq<byte>>,
                                                  parse: seq<byte> -> Request, stringify: OutMsg -> Payload, now: string)
    requires Valid(store)
    ensures Valid(HandleAll(store, clients, sender, messages, parse, stringify, now).0)
    decreases |messages|
  {
    if |messages| > 0 {
      DispatchPreservesValid(store, parse(messages[0]), now);
      var s1 := Dispatch(store, parse(messages[0]), now).0;
      HandleAllPreservesValid(s1, clients, sender, messages[1..], parse, stringify, now);
    }
  }

  /** A connection outside the registry, other than the sender, receives nothing while messages are handled. */
  lemma {:induction false} HandleAllSkipsOutsiders(store: Store, clients: seq<ConnId>, sender: ConnId, messages: seq<seq<byte>>,
                                                  parse: seq<byte> -> Request, stringify: OutMsg -> Payload, now: string, c: ConnId)
    requires c !in clients && c != sender
    ensures SendsTo(HandleAll(store, clients, sender, messages, parse, stringify, now).1, c) == 0
    decreases |messages|
  {
    if |messages| > 0 {
      var (s1, outcome) := Dispatch(store, parse(messages[0]), now);
      var d := Deliver(clients, sender, outcome, stringify);
      var rest := HandleAll(s1, clients, sender, messages[1..], parse, stringify, now).1;
      HandleAllSkipsOutsiders(s1, clients, sender, messages[1..], parse, stringify, now, c);
      SendsToAppend(d, rest, c);
      match outcome
      case Reply(m) =>
        assert d[1..] == [];
      case Broadcast(m) =>
        FanoutOutsider(clients, Encode(stringify(m)), c);
    }
  }

  /** A fan-out sends nothing to a connection outside the registry. */
  lemma {:induction false} FanoutOutsider(clients: seq<ConnId>, frame: seq<byte>, c: ConnId)
    requires c !in clients
    ensures SendsTo(Fanout(clients, frame), c) == 0
    decreases |clients|
  {
    if |clients| > 0 {
      assert Fanout(clients, frame)[1..] == Fanout(clients[1..], frame);
      FanoutOutsider(clients[1..], frame, c);
    }
  }

  /** Every event keeps the store valid, the registry free of duplicates and every kept buffer stalled. */
  lemma EventsPreserveValid(st: ServerState, conn: ConnId, url: string, key: Option<string>, chunk: seq<byte>,
                            digest: string -> string, parse: seq<byte> -> Request, stringify: OutMsg -> Payload, now: string)
    requires ServerValid(st)
    ensures ServerValid(OnUpgrade(st, conn, url, key, digest, stringify).0)
    ensures conn in st.buffers ==> ServerValid(OnData(st, conn, chunk, parse, stringify, now).0)
    ensures ServerValid(OnDisconnect(st, conn))
  {
    if conn in st.buffers {
      var step := Feed(st.buffers[conn], chunk);
      HandleAllPreservesValid(st.store, st.clients, conn, step.messages, parse, stringify, now);
    }
  }

  /**
    Once a connection has closed (or failed), the data another connection
    sends never produces a frame for it, broadcasts included.
   */
  lemma ClosedConnectionHearsNothing(st: ServerState, closed: ConnId, sender: ConnId, chunk: seq<byte>,
                                     parse: seq<byte> -> Request, stringify: OutMsg -> Payload, now: string)
    requires sender in st.buffers && sender != closed
    ensures SendsTo(OnData(OnDisconnect(st, closed), sender, chunk, parse, stringify, now).1, closed) == 0
  {
    var st1 := OnDisconnect(st, closed);
    var step := Feed(st1.buffers[sender], chunk);
    var handled := HandleAll(st1.store, st1.clients, sender, step.messages, parse, stringify, now);
    HandleAllSkipsOutsiders(st1.store, st1.clients, sender, step.messages, parse, stringify, now, closed);
    var tail: seq<Action> := if step.closed then [End(sender)] else [];
    SendsToAppend(handled.1, tail, closed);
    if step.closed {
      assert tail[1..] == [];
    }
  }
}

=== FILE: session.dfy ===
/**
  The per-connection `data` handler of server.js: every chunk is appended to
  the connection's buffer, the buffer is decoded, and the decoder's remainder
  becomes the new buffer.
 */
module Session {
  import opened Bytes
  import opened FrameCodec

  /** What one or more chunks leave behind: the kept buffer, the messages handed on, whether a close frame arrived. */
  datatype Step = Step(buffer: seq<byte>, messages: seq<seq<byte>>, closed: bool)

  /**
    One `data` event. The kept buffer never starts with a complete frame, and
    it is empty once a close frame has been decoded.
   */
  function Feed(buffer: seq<byte>, chunk: seq<byte>): (s: Step)
    ensures Stalled(s.buffer)
    ensures s.closed ==> s.buffer == []
    ensures !s.closed ==> IsSuffix(s.buffer, buffer + chunk)
  {
    var r := DecodeFrames(buffer + chunk);
    DecodeFramesShape(buffer + chunk);
    Step(r.remaining, r.messages, r.closed)
  }

  /** All chunks joined in arrival order. */
  function Concat(chunks: seq<seq<byte>>): seq<byte>
  {
    if |chunks| == 0 then [] else chunks[0] + Concat(chunks[1..])
  }

  /**
    A sequence of `data` events. The source keeps handling data events after
    a close frame (ending the socket only half-closes it), so the run goes on.
   */
  function Run(buffer: seq<byte>, chunks: seq<seq<byte>>): Step
    decreases |chunks|
  {
    if |chunks| == 0 then Step(buffer, [], false)
    else
      var first := Feed(buffer, chunks[0]);
      var rest := Run(first.buffer, chunks[1..]);
      Step(rest.buffer, first.messages + rest.messages, first.closed || rest.closed)
  }

  /**
    Starting from a kept buffer (which never holds a complete frame), however
    the bytes are split into chunks, the data handler hands on the same
    messages as decoding all of them at once. Without a close frame the kept
    buffer is the same too; with one, the run reports it and its messages
    begin with everything decoded up to the close frame.
   */
  lemma {:induction false} ChunkingAgrees(buffer: seq<byte>, chunks: seq<seq<byte>>)
    requires Stalled(buffer)
    ensures var whole := DecodeFrames(buffer + Concat(chunks));
      var run := Run(buffer, chunks);
      && (!whole.closed ==> run == Step(whole.remaining, whole.messages, false))
      && (whole.closed ==> run.closed && whole.messages <= run.messages)
    decreases |chunks|
  {
    var whole := DecodeFrames(buffer + Concat(chunks));
    if |chunks| == 0 {
      assert buffer + [] == buffer;
      DecodeStalled(buffer);
    } else {
      var c := chunks[0];
      var first := DecodeFrames(buffer + c);
      assert buffer + Concat(chunks) == (buffer + c) + Concat(chunks[1..]);
      DecodeAppend(buffer + c, Concat(chunks[1..]));
      DecodeFramesShape(buffer + c);
      ChunkingAgrees(first.remaining, chunks[1..]);
    }
  }
}

=== FILE: wrappers.dfy ===
/** Optional values: JavaScript's `undefined`/missing cases and "no result yet". */
module Wrappers {

  datatype Option<+T> = None | Some(value: T)
}
